=== FILE: README.md ===
# Capability invocation in the Composite kernel, modelled in Dafny

This project models the capability-invocation path of the Composite
microkernel (`src/kernel/capinv.c`) and proves properties of the model:

- **The dispatcher** `composite_sysenter_handler`. It takes the trap frame
  of the running thread and checks the default-return id first. It then
  checks for a print request, and after that looks the capability id up in
  the table of the thread's current component (the top of its invocation
  stack). It branches on the capability's type tag: SINV, THD, ASND, ARCV,
  then the slow-path operation switch for CAPTBL and PGTBL capabilities,
  then SRET, and COMP (or anything else) goes to `err:`. Each trap either
  writes exactly one result code into the frame, hands control to the
  invocation call/return collaborator, or switches threads
  (`Dispatcher.RouteTrap`, `Dispatcher.Dispatch`, `SlowPath`).
- **The thread switch** `cap_switch_thd`. It is an all-or-nothing
  transition guarded by the liveness of the target's current component
  (`ThreadSwitch.SwitchThd`).
- **The IPI ring scan** `cos_cap_ipi_handling`. It visits every source
  core's ring once, starting at a rotating index, and hands each ring whose
  sender and receiver counters differ to processing (`IpiRing.CapIpiHandling`).

The kernel state (`KernelState.Kernel`) has these parts:

- the threads;
- the running thread;
- the capability tables, as a map from table to a map from id to `Cap`
  record (one datatype variant per type tag);
- the set of live liveness ids;
- the active page table;
- the trap frame;
- a trace of calls made to collaborators whose bodies are not part of this
  model.

Each such collaborator's integer status comes from an oracle parameter
`status: Call -> int`. Two examples are `cap_mem_retype2kern` and
`captbl_expand`. Every call to such a collaborator appears in the trace, in
order. So "no collaborator call and no other change" can be stated exactly.
Four other kernel calls are modelled by the state they read or write and are
not logged:

- `thd_current_update` (capinv.c:94) sets the running thread;
- `pgtbl_update` (capinv.c:96) sets the active page table;
- `ltbl_isalive` (capinv.c:84, :204) is membership in the set of live ids;
- `captbl_lkup` (capinv.c:163, :209, :304, :433) is a map lookup.

The model follows the code, including where it behaves unexpectedly:

- Every `cos_throw(err, …)` and `goto err` ends at `err:`, which overwrites
  the result with `-ENOENT` (capinv.c:503-505). A failed memory retype, a
  wrong-core thread capability (thrown as `EINVAL`) and a dead send target
  (thrown as `-EFAULT`) all reach the caller as `-ENOENT`.
- The same-core ASND path switches to the receive endpoint's thread
  without setting its `interrupted_thread` (capinv.c:199-216). The THD path
  does set it, before the switch, so the link stays even if the switch
  faults (capinv.c:186-188).
- The receive path with nothing to resume writes `-1` (capinv.c:240-245).
- `thd->flags &= !THD_STATE_ACTIVE_UPCALL` (capinv.c:248) uses logical
  negation. It ANDs the flags with 0 and clears every flag, so afterwards
  the flags are exactly READY_UPCALL.
- Table expansion (CAPTBL_OP_CONS) looks up the target at capinv.c:433.
  That target is the invoked capability itself, which is a CAPTBL
  capability on this path. So the type check at capinv.c:434 cannot fail.
  The retype at capinv.c:430 still comes first and is always logged.

Machine words are 32-bit unsigned. The kernel is 32-bit x86, as its `movl`
at capinv.c:23 shows. So the 16-bit field splits are `% 2^16` and `/ 2^16`,
and the second expansion id `target_id + PAGE_SIZE/2/CAPTBL_LEAFSZ` wraps
modulo 2^32.

## Model

| member | source | states |
|---|---|---|
| `Words.Low16` | src/kernel/capinv.c:330 | `arg & 0xFFFF` is the unique value below 2^16 that differs from `arg` by a multiple of 2^16 |
| `Words.High16` | src/kernel/capinv.c:331 | `arg >> 16` of a 32-bit register is the 16-bit value `h` with `h * 2^16 <= arg < (h + 1) * 2^16` |
| `Words.SplitPackRoundTrip` | src/kernel/capinv.c:330-331 | the high and low 16-bit fields of a register, packed again, give the register back |
| `Words.PackSplitRoundTrip` | src/kernel/capinv.c:355-356 | two 16-bit fields packed into one register are recovered exactly by `>> 16` and `& 0xFFFF` |
| `Words.AddWrap` | src/kernel/capinv.c:441 | `capid_t` addition is exact below 2^32 and wraps by exactly 2^32 above it |
| `ThreadSwitch.SwitchThd` | src/kernel/capinv.c:79-112 | if the target's top component is dead, only the caller's result changes, to `-EFAULT`, and 0 is returned. If it is alive, the caller saves the trap frame with the success code, the core runs `next` in its top component's page table, the trap frame becomes `next`'s saved frame, only PREEMPTED is cleared from `next`'s flags, the result is 1 exactly when PREEMPTED was set, and no other thread, table or liveness id changes |
| `ThreadSwitch.SwitchIsAtomic` | src/kernel/capinv.c:82-111 | afterwards either the core runs `next` in `next`'s address space with the caller's frame saved and the trap frame loaded from `next`'s saved frame, or nothing changed except the caller's `-EFAULT` |
| `ThreadSwitch.SwitchBackResumesCaller` | src/kernel/capinv.c:91-109 | switching a→b and then b→a resumes a with its trapped frame (result = success), in its own page table, and leaves b's saved frame holding b's old frame with the success code |
| `SlowPath.HalfPageSlots` | src/kernel/capinv.c:441 | `PAGE_SIZE/2/CAPTBL_LEAFSZ` is the largest number of leaf slots that fit in half a page |
| `SlowPath.RetypeOf` | src/kernel/capinv.c:273-431 | exactly CAPTBL/PGD/PTE/THD activation and CONS retype memory, and they do so in the current component's table `ci->captbl` (:262), where the invoked capability was found |
| `SlowPath.CaptblOp` | src/kernel/capinv.c:265-450 | a retyping operation calls the retype first; a failed retype ends at `err:` with the retype status as the thrown code and no other call; DECONS, the mapping ops and unknown ops end at `err:` with no call; SRET activation ends at `done:` with 0 and no call; every other arm that reaches `done:` (the activations, deactivations and CPY at :287-415, and CONS at :419-445, whose `done:` write is at :441-444) writes the status of its last collaborator call |
| `SlowPath.Expand` | src/kernel/capinv.c:419-445 | CONS retypes first. On retype failure it stops there. Otherwise it expands the target table at `a1` with the page's lower half. Only if that succeeds does it expand at `a1 + HalfPageSlots` (mod 2^32) with the upper half, and the second status is the result |
| `SlowPath.PgtblOp` | src/kernel/capinv.c:451-495 | DECONS and MAPPING_CONS finish with 0 and no call. MAPPING_DECONS on a table of `lvl` 0 (a root page table, :308) returns the deletion's status, and on any other level (the PTE pages of :324) throws `EINVAL`. CPY and CONS write the status of their one call (`cap_cpy`, `cap_cons`). The arm ends at `err:` exactly for the ops a page table lacks and for MAPPING_DECONS on a level other than 0 |
| `Dispatcher.RouteTrap` | src/kernel/capinv.c:139-506 | a path that reaches `done:`/`err:` leaves threads, running thread, frame and page table as they were; no path changes the liveness registry, the set of tables or threads, or drops trace entries |
| `Dispatcher.Dispatch` | src/kernel/capinv.c:116-511 | the handler returns 0 or 1 (the preemption bit); liveness ids and the set of tables are unchanged and the trace only grows |
| `DispatchProperties.DefaultReturnSkipsLookup` | src/kernel/capinv.c:143-148 | id 0 calls `sret_ret` and nothing else, before the print check and without any table lookup |
| `DispatchProperties.PrintPrecedesLookup` | src/kernel/capinv.c:150-154 | a print request with a non-zero id is served before the lookup |
| `DispatchProperties.LookupMissWritesNotFound` | src/kernel/capinv.c:163-168 | an id missing from the current table writes `-ENOENT` and changes nothing else |
| `DispatchProperties.ErrSitesAreExact` | src/kernel/capinv.c:503-506 | the dispatcher reaches `err:` exactly on the inputs listed by throw site: wrong core (:182), dead send target (:206), non-ARCV receive slot (:212), foreign endpoint (:225), retype failure (:282, :301, :320, :338, :431), failed first expansion (:438), missing CAPTBL ops (:446-447), mapping removal on a page table whose `lvl` is not 0 (:485), missing PGTBL ops (:490-492) and COMP capabilities (:503) |
| `DispatchProperties.ErrWritesNotFound` | src/kernel/capinv.c:503-508 | whatever was thrown, every `err:` path writes `-ENOENT` and changes nothing but the result and the trace |
| `DispatchProperties.RetypeFailureIsMasked` | src/kernel/capinv.c:281-282 | a failed retype is reported as `-ENOENT`, not as its own status, and is the only collaborator call |
| `DispatchProperties.NoOpOperations` | src/kernel/capinv.c:378-379 | SRET activation, and PGTBL DECONS and MAPPING_CONS (:476-480), write 0 and change nothing else |
| `DispatchProperties.ThdOtherCoreRefused` | src/kernel/capinv.c:182 | a thread capability of another core writes `-ENOENT`, with no switch and no other change |
| `DispatchProperties.ThdDispatchLinksCaller` | src/kernel/capinv.c:178-188 | a same-core thread dispatch sets the target's interrupted thread to the caller even when the switch faults; the switch happens exactly when the target is alive; when it switches to another thread, the core takes that thread's page table, the trap frame becomes its saved frame, the caller's saved frame is the trapped one with the success code, and 1 is returned exactly when the target was PREEMPTED (via :91-111) |
| `DispatchProperties.AsndCrossCoreSignals` | src/kernel/capinv.c:195-198 | a cross-core send makes one signal call and writes its status, nothing else |
| `DispatchProperties.AsndSameCoreUpcall` | src/kernel/capinv.c:199-216 | a same-core send to a live component switches to the endpoint's thread without touching its interrupted link; a dead endpoint thread only yields `-EFAULT`; when it switches to another thread, the core takes that thread's page table, the trap frame becomes its saved frame, the caller's saved frame is the trapped one with the success code, and 1 is returned exactly when the target was PREEMPTED (via :91-111) |
| `DispatchProperties.ArcvNotOwnerRefused` | src/kernel/capinv.c:224-226 | receiving on another thread's endpoint writes `-ENOENT` and nothing else |
| `DispatchProperties.ArcvConsumesPending` | src/kernel/capinv.c:233-238 | with a pending notification, the endpoint's counter drops by exactly one, 0 is written, and nothing else changes (no switch) |
| `DispatchProperties.ArcvNothingToResume` | src/kernel/capinv.c:240-245 | nothing pending and no interrupted thread writes -1 and changes nothing else |
| `DispatchProperties.ArcvReturnsToInterrupted` | src/kernel/capinv.c:246-252 | otherwise the thread records the endpoint id, its flags become exactly READY_UPCALL, its interrupted link is kept, and it switches to the interrupted thread exactly when that thread is alive; when it switches to another thread, the core takes that thread's page table, the trap frame becomes its saved frame, the caller's saved frame is the trapped one with the success code, and 1 is returned exactly when the target was PREEMPTED (via :91-111) |
| `DispatchProperties.ConsExpandsTwoHalves` | src/kernel/capinv.c:430-442 | on a trap, CONS always logs the retype first. A retype failure stops there with `-ENOENT`. A failed first expansion gives `-ENOENT` and no second expansion. Otherwise the second half is expanded at `a1 + HalfPageSlots` (mod 2^32) and its status is written |
| `DispatchProperties.ThdActivateSplitsFirstArg` | src/kernel/capinv.c:328-344 | thread activation passes the low 16 bits of `a1` as the slot and the high 16 bits as init data, which together are exactly `a1`, and writes the activation's status |
| `DispatchProperties.CompActivateSplitsSecondArg` | src/kernel/capinv.c:353-362 | component activation passes the high and low 16 bits of `a2` as table and page-table ids, which together are exactly `a2`, and writes the activation's status |
| `DispatchProperties.WfKept` | src/kernel/capinv.c:156-157 | a state whose threads keep their stacks and cores, and whose capabilities keep their thread references, satisfies the invariant behind the unchecked lookups |
| `DispatchProperties.SwitchKeepsWf` | src/kernel/capinv.c:79-112 | a thread switch preserves that invariant |
| `DispatchProperties.DispatchKeepsWf` | src/kernel/capinv.c:116-511 | every trap preserves that invariant: the thread switches, and every path through `done:`/`err:` |
| `IpiRing.ScanOrderIsRotation` | src/kernel/capinv.c:522-540 | the i-th ring visited is `(start + i) % NUM_CPU` |
| `IpiRing.ScanOrderVisitsEachOnce` | src/kernel/capinv.c:521-540 | the scan visits exactly the indices `[0, NUM_CPU)`, each once |
| `IpiRing.PendingMembers` | src/kernel/capinv.c:529-538 | a ring is handed to processing exactly when it is visited and its sender and receiver counters differ |
| `IpiRing.PendingDistinct` | src/kernel/capinv.c:527-540 | when every index is visited at most once, every ring is processed at most once |
| `IpiRing.ScanRange` | src/kernel/capinv.c:527-532 | one loop visits `lo..hi-1` in order and processes exactly the pending ones among them, appended after what earlier loops did |
| `IpiRing.CapIpiHandling` | src/kernel/capinv.c:513-543 | for `0 <= start < NUM_CPU`, the scan visits `start..NUM_CPU-1` then `0..start-1`, processes exactly the rings with `sender != receiver`, each once, in that order, and leaves `start = (start + 1) % NUM_CPU`, still in range, with the rings unchanged |
| `IpiRing.SendsDetectedOncePerScan` | src/kernel/capinv.c:529-538 | one or more sends posted since the last drain make one scan process that source's ring exactly once |

## Left out

- Dispatcher.Dispatch: its own contract states only what every trap keeps (return value, liveness registry, tables, trace). The behaviour of each branch is stated by the `DispatchProperties` lemmas and the `SlowPath` and `ThreadSwitch` contracts.
- Dispatcher.RouteTrap: likewise, its contract is the frame condition of each exit. Branch behaviour is in the `DispatchProperties` lemmas.
- DispatchProperties.DispatchKeepsWf: for SINV, SRET and default-return traps the invariant holds only because `sinv_call` and `sret_ret` change no modelled state. The real calls push onto and pop from the invocation stack, which the invariant constrains (non-empty, with an existing top table). So the model does not establish that such a trap keeps the invariant.

- `printfn` and `fs_reg_setup` (capinv.c:18-76): user-memory copy, console output, inline assembly and cache/TLB flushes. A print request is a boolean `printReq` in the frame, recorded as a `PrintFn` call. Only its place in the check order is modelled.
- Collaborator bodies are not part of this model. These are logged `Call`s, and each has an oracle status:
  - `sinv_call` and `sret_ret`;
  - `cap_mem_retype2kern`;
  - `captbl_create`, `captbl_init` and `captbl_expand`;
  - `pgtbl_create`, `pgtbl_init_pte`, `pgtbl_activate` and `pgtbl_mapping_del`;
  - every `*_activate` and `*_deactivate`;
  - `cap_cpy`, `cap_cons` and `cos_cap_send_ipi`.

  `sinv_call` and `sret_ret` change no modelled state. `thd_current_update`, `pgtbl_update`, `ltbl_isalive` and `captbl_lkup` are modelled by state, as described above. Beyond a map lookup, `captbl_lkup` is not modelled.
- The status oracle is a function of the call alone, so two identical calls would get the same status. The dispatcher never makes the same call twice in one trap.
- `cos_meas_event` and `printk` are left out: they are measurement and console output.
- `process_ring`, inter-processor interrupt delivery, and the cross-core memory ordering of the ring counters are left out: they are concurrency. The scan works on a snapshot of the rings and records which rings it would process.
- The register-frame layout and `copy_gp_regs` are left out. A frame is a record: a settable result slot, the capability id, the decoded operation, and four argument words.
- Operation codes are a datatype, because their numeric values live in a header that is not part of this model. `CAPTBL_LEAFSZ` is a platform parameter for the same reason. `COS_SCHED_RET_SUCCESS` is taken as 0, and the errno values are Linux's.
- Retyped kernel memory is identified by the retype's arguments (`KMem`), not by an address.
- The capability table's multi-level layout is flattened into a map.
- The assertions at capinv.c:230-231 are left out. They use `=`, not `==`, so with assertions compiled in they would copy the caller's page table and table into the endpoint record. The `assert` macro's header is not part of this model.
- Some unchecked dereferences and assertions about the invoked capability are preconditions (`Dispatcher.Invocable`), not behaviour. A trap that breaks one would halt or corrupt the kernel. They are:
  - a send names a non-zero receive id (capinv.c:193);
  - the receive-capability lookup after a same-core send succeeds (capinv.c:209-210);
  - a receive endpoint invoked by its owner belongs to the current core (capinv.c:229);
  - a PGD activation finds its parent page table (capinv.c:304-305).
- The assertions at capinv.c:283, :302 and :321 (`kmem_addr`), :286 (`newct`) and :305 (`curr_pt`) are left out. They are about addresses that collaborators return or store. The model identifies memory by `KMem` and page tables by reference, not by address, so these assertions have nothing to check.
- IpiRing.SendsDetectedOncePerScan: the ring counters are unbounded integers, so a wrap-around of the C counters is not modelled. The lemma reads `sender == receiver + sends` as "`sends` notifications posted", which holds only while the sender counter has not wrapped. The scan itself tests `sender != receiver`, as the code does.
- The assertions at capinv.c:157 and :183 are part of the invariant `KernelState.Wf`, not checks.
- `LINUX_TEST` build variants are left out.

=== FILE: dispatch.dfy ===
/**
  The capability dispatcher `composite_sysenter_handler` (capinv.c:116-511):
  given the trap frame of the running thread, it resolves the invoked
  capability id in the table of the thread's current component, branches on
  the capability's type, and either writes exactly one result code into the
  trap frame, hands control to a collaborator (invocation call/return), or
  switches threads.
 */
module Dispatcher {
  import opened Words
  import opened KernelState
  import opened ThreadSwitch
  import opened SlowPath

  /**
    How a dispatch ends. `Finish` reaches `done:` or `err:`, which write the
    frame's result slot from `exit`; `Leave` returns directly from the
    handler with `ret`, the frame having been left as the callee made it.
   */
  datatype Route = Finish(exit: Exit, k: Kernel) | Leave(k: Kernel, ret: int)

  /** The outcome of one trap: the new state and the handler's return value. */
  datatype Step = Step(k: Kernel, ret: int)

  /** The result code `done:` writes for an exit; every `err:` exit writes `-ENOENT`. */
  function ResultCode(e: Exit): int {
    match e
    case Done(code) => code
    case Err(_) => -ENOENT
  }

  /** Whether the trap goes past the default return and print checks to a table lookup. */
  predicate LooksUp(k: Kernel) {
    k.regs.cap != COS_DEFAULT_RET_CAP && !k.regs.printReq
  }

  /**
    What the handler dereferences or asserts without checking, for the invoked
    capability: a send names a non-zero receive id (capinv.c:193); a same-core
    send to a live component finds a slot under that id in the component's
    table (capinv.c:209-210); a receive by its owner is on the owner's core
    (capinv.c:229); and a PGD activation finds its parent page table
    (capinv.c:304-305).
   */
  ghost predicate Invocable(status: Call -> int, p: Platform, k: Kernel)
    requires Wf(k)
  {
    var tbl := CurrentTable(k);
    var cap := k.regs.cap;
    LooksUp(k) && cap in tbl ==>
      match tbl[cap]
      case AsndCap(rid, rcpu, comp) =>
        && rid != 0
        && (rcpu == p.cpu && comp.liveness in k.live ==> comp.captbl in k.tables && rid in k.tables[comp.captbl])
      case ArcvCap(owner, cpu, _, _) =>
        owner == k.current ==> cpu == p.cpu
      case CaptblCap(_) =>
        ParentResolves(status, tbl, Top(k.threads[k.current]).captbl, k.regs)
      case _ => true
  }

  function RouteTrap(status: Call -> int, p: Platform, k: Kernel): (r: Route)
    requires Wf(k) && p.leafSize > 0 && Invocable(status, p, k)
    ensures r.Finish? ==> r.k.threads == k.threads && r.k.current == k.current
                          && r.k.regs == k.regs && r.k.pgtbl == k.pgtbl
    ensures r.k.live == k.live
    ensures r.k.tables.Keys == k.tables.Keys
    ensures r.k.threads.Keys == k.threads.Keys
    ensures |r.k.trace| >= |k.trace| && r.k.trace[..|k.trace|] == k.trace
  {
    var regs := k.regs;
    var cap := regs.cap;
    var thd := k.current;
    if cap == COS_DEFAULT_RET_CAP then
      // No table lookup: the default return capability.
      Leave(Log(k, [SretRet(thd)]), 0)
    else if regs.printReq then
      Leave(Log(k, [PrintFn]), 0)
    else
      var ct := Top(k.threads[thd]).captbl;
      var tbl := k.tables[ct];
      if cap !in tbl then Finish(Done(-ENOENT), k)
      else
        var ch := tbl[cap];
        match ch
        case SinvCap(_, _) =>
          Leave(Log(k, [SinvCall(thd, ch)]), 0)
        case ThdCap(next, cpuid) =>
          if cpuid != p.cpu then Finish(Err(Some(EINVAL)), k)
          else
            // The back-link is set before, and independently of, the switch.
            var k1 := k.(threads := k.threads[next := k.threads[next].(interrupted := Some(thd))]);
            var s := SwitchThd(k1, thd, next);
            Leave(s.k, s.preempt)
        case AsndCap(rid, rcpu, comp) =>
          if rcpu != p.cpu then
            var ipi := SendIpi(rcpu, ch);
            Finish(Done(status(ipi)), Log(k, [ipi]))
          else if comp.liveness !in k.live then Finish(Err(Some(-EFAULT)), k)
          else
            (match k.tables[comp.captbl][rid]
             case ArcvCap(t, _, _, _) =>
               var s := SwitchThd(k, thd, t);
               Leave(s.k, s.preempt)
             case _ => Finish(Err(Some(EINVAL)), k))
        case ArcvCap(owner, _, _, pending) =>
          if owner != thd then Finish(Err(Some(EINVAL)), k)
          else if pending > 0 then
            Finish(Done(0), k.(tables := k.tables[ct := tbl[cap := ch.(pending := pending - 1)]]))
          else
            var th := k.threads[thd];
            (match th.interrupted
             case None => Finish(Done(-1), k)
             case Some(it) =>
               // `flags &= !THD_STATE_ACTIVE_UPCALL` ands with 0 and clears
               // every flag; READY_UPCALL is then set on its own.
               var k1 := k.(threads := k.threads[thd := th.(arcvCap := cap, flags := {ReadyUpcall})]);
               var s := SwitchThd(k1, thd, it);
               Leave(s.k, s.preempt))
        case SretCap =>
          Leave(Log(k, [SretRet(thd)]), 0)
        case CaptblCap(_) =>
          var s := CaptblOp(status, p.leafSize, tbl, ct, cap, regs);
          Finish(s.exit, Log(k, s.calls))
        case PgtblCap(_, _) =>
          var s := PgtblOp(status, ct, cap, ch, regs);
          Finish(s.exit, Log(k, s.calls))
        case CompCap(_, _) =>
          Finish(Err(None), k)
  }

  /** One trap through `composite_sysenter_handler`. */
  function Dispatch(status: Call -> int, p: Platform, k: Kernel): (r: Step)
    requires Wf(k) && p.leafSize > 0 && Invocable(status, p, k)
    ensures r.ret == 0 || r.ret == 1
    ensures r.k.live == k.live
    ensures r.k.tables.Keys == k.tables.Keys
    ensures |r.k.trace| >= |k.trace| && r.k.trace[..|k.trace|] == k.trace
  {
    match RouteTrap(status, p, k)
    case Finish(e, k1) => Step(k1.(regs := k1.regs.(ret := ResultCode(e))), 0)
    case Leave(k1, ret) => Step(k1, ret)
  }
}

=== FILE: dispatch_properties.dfy ===
/**
  Properties of one trap through the dispatcher: the order of its checks,
  which inputs end at the `err:` label and what that writes, the no-op
  operations, thread dispatch, asynchronous send and receive, table
  expansion, and the structural invariant every trap preserves.
 */
module DispatchProperties {
  import opened Words
  import opened KernelState
  import opened ThreadSwitch
  import opened SlowPath
  import opened Dispatcher

  /** The precondition every trap in this module is taken under. */
  ghost predicate Ready(status: Call -> int, p: Platform, k: Kernel) {
    Wf(k) && p.leafSize > 0 && Invocable(status, p, k)
  }

  /** The invoked capability, for a trap that looks one up and finds it. */
  ghost predicate Invokes(k: Kernel, c: Cap)
    requires Wf(k)
  {
    LooksUp(k) && k.regs.cap in CurrentTable(k) && CurrentTable(k)[k.regs.cap] == c
  }

  /** Only the caller's result slot changed, to `code`; the handler returned 0. */
  ghost predicate OnlyWrote(k: Kernel, r: Step, code: int) {
    r == Step(k.(regs := k.regs.(ret := code)), 0)
  }

  // ----- Check order -----------------------------------------------------

  /**
    The default return capability goes to the invocation-return collaborator
    before the print check and without consulting any capability table.
   */
  lemma DefaultReturnSkipsLookup(status: Call -> int, p: Platform, k: Kernel)
    requires Ready(status, p, k)
    requires k.regs.cap == COS_DEFAULT_RET_CAP
    ensures Dispatch(status, p, k) == Step(k.(trace := k.trace + [SretRet(k.current)]), 0)
  {
  }

  /** A print request with any other id is served before the table lookup. */
  lemma PrintPrecedesLookup(status: Call -> int, p: Platform, k: Kernel)
    requires Ready(status, p, k)
    requires k.regs.cap != COS_DEFAULT_RET_CAP && k.regs.printReq
    ensures Dispatch(status, p, k) == Step(k.(trace := k.trace + [PrintFn]), 0)
  {
  }

  /** An id missing from the current component's table writes `-ENOENT` and nothing else. */
  lemma LookupMissWritesNotFound(status: Call -> int, p: Platform, k: Kernel)
    requires Ready(status, p, k)
    requires LooksUp(k) && k.regs.cap !in CurrentTable(k)
    ensures OnlyWrote(k, Dispatch(status, p, k), -ENOENT)
  {
  }

  // ----- The err: label ---------------------------------------------------

  /** Whether the slow-path switch of a capability-table capability ends at `err:`. */
  ghost predicate CaptblArmFails(status: Call -> int, table: TableRef, ct: TableRef, r: Regs) {
    // Retyping failed (capinv.c:282, 301, 320, 338, 431).
    || (RetypeOf(ct, r).Some? && !RetypeOk(status, ct, r))
    // The first half of an expansion failed (capinv.c:437-438).
    || (r.op == OpCons && RetypeOk(status, ct, r)
        && status(CaptblExpand(table, r.a1, KMem(r.a2, r.a3, 0))) != 0)
    // Operations a capability table does not have (capinv.c:446-447).
    || r.op in {OpDecons, OpMappingCons, OpMappingDecons, OpMappingMod, OpMappingRetype}
    || r.op.OpOther?
  }

  /** Whether the slow-path switch of a page-table capability ends at `err:`. */
  ghost predicate PgtblArmFails(lvl: nat, r: Regs) {
    // A mapping removal on a page table whose level is not 0, the root level
    // (capinv.c:485), and operations a page table does not have
    // (capinv.c:490-492).
    !(r.op in {OpCpy, OpCons, OpDecons, OpMappingCons} || (r.op == OpMappingDecons && lvl == 0))
  }

  /**
    The inputs that reach the `err:` label, listed by the site that sends them
    there, independently of how the dispatcher is written.
   */
  ghost predicate ReachesErr(status: Call -> int, p: Platform, k: Kernel)
    requires Wf(k)
  {
    var tbl := CurrentTable(k);
    var cap := k.regs.cap;
    && LooksUp(k) && cap in tbl
    && match tbl[cap]
       case ThdCap(_, cpuid) => cpuid != p.cpu                                  // capinv.c:182
       case AsndCap(rid, rcpu, comp) =>
         && rcpu == p.cpu
         && (|| comp.liveness !in k.live                                       // capinv.c:206
             || (comp.captbl in k.tables && rid in k.tables[comp.captbl]
                 && !k.tables[comp.captbl][rid].ArcvCap?))                    // capinv.c:212
       case ArcvCap(owner, _, _, _) => owner != k.current                       // capinv.c:225
       case CaptblCap(table) =>
         CaptblArmFails(status, table, Top(k.threads[k.current]).captbl, k.regs)
       case PgtblCap(_, lvl) => PgtblArmFails(lvl, k.regs)
       case CompCap(_, _) => true                                              // capinv.c:503
       case SinvCap(_, _) => false
       case SretCap => false
  }

  /** The dispatcher ends at `err:` exactly on the inputs `ReachesErr` lists. */
  lemma ErrSitesAreExact(status: Call -> int, p: Platform, k: Kernel)
    requires Ready(status, p, k)
    ensures (RouteTrap(status, p, k).Finish? && RouteTrap(status, p, k).exit.Err?) <==> ReachesErr(status, p, k)
  {
  }

  /**
    Whatever code an `err:` path threw (a retype status, `EINVAL`, `-EFAULT`
    or nothing), the caller sees `-ENOENT`; only the trace of collaborator
    calls made before the throw changes besides.
   */
  lemma ErrWritesNotFound(status: Call -> int, p: Platform, k: Kernel)
    requires Ready(status, p, k)
    requires ReachesErr(status, p, k)
    ensures var r := Dispatch(status, p, k);
      && r.k == k.(regs := k.regs.(ret := -ENOENT), trace := r.k.trace)
      && r.ret == 0
  {
    ErrSitesAreExact(status, p, k);
  }

  /** A retype failure is not propagated, and the failed retype is the only call made. */
  lemma RetypeFailureIsMasked(status: Call -> int, p: Platform, k: Kernel, table: TableRef)
    requires Ready(status, p, k)
    requires Invokes(k, CaptblCap(table))
    requires RetypeOf(Top(k.threads[k.current]).captbl, k.regs).Some?
    requires !RetypeOk(status, Top(k.threads[k.current]).captbl, k.regs)
    ensures OnlyWroteAndCalled(k, Dispatch(status, p, k), -ENOENT, [RetypeOf(Top(k.threads[k.current]).captbl, k.regs).value])
  {
  }

  /** Only the result slot changed, to `code`, after the collaborator calls `calls`. */
  ghost predicate OnlyWroteAndCalled(k: Kernel, r: Step, code: int, calls: seq<Call>) {
    r == Step(k.(regs := k.regs.(ret := code), trace := k.trace + calls), 0)
  }

  // ----- Operations that do nothing ---------------------------------------

  /** SRET activation, page-table DECONS and MAPPING_CONS write 0 and change nothing. */
  lemma NoOpOperations(status: Call -> int, p: Platform, k: Kernel)
    requires Ready(status, p, k)
    requires LooksUp(k) && k.regs.cap in CurrentTable(k)
    requires var c := CurrentTable(k)[k.regs.cap];
      || (c.CaptblCap? && k.regs.op == OpSretActivate)
      || (c.PgtblCap? && k.regs.op in {OpDecons, OpMappingCons})
    ensures OnlyWrote(k, Dispatch(status, p, k), 0)
  {
  }

  // ----- Thread dispatch ---------------------------------------------------

  /** A thread capability of another core is refused with `-ENOENT`; no switch happens. */
  lemma ThdOtherCoreRefused(status: Call -> int, p: Platform, k: Kernel, t: ThreadId, cpuid: nat)
    requires Ready(status, p, k)
    requires Invokes(k, ThdCap(t, cpuid)) && cpuid != p.cpu
    ensures OnlyWrote(k, Dispatch(status, p, k), -ENOENT)
  {
  }

  /**
    A same-core thread dispatch records the caller as the target's
    interrupted thread whether or not the switch then faults; the switch
    happens exactly when the target's current component is alive.
   */
  lemma ThdDispatchLinksCaller(status: Call -> int, p: Platform, k: Kernel, t: ThreadId)
    requires Ready(status, p, k)
    requires Invokes(k, ThdCap(t, p.cpu))
    ensures t in k.threads && |k.threads[t].invstk| > 0
    ensures var r := Dispatch(status, p, k);
      && t in r.k.threads
      && r.k.threads[t].interrupted == Some(k.current)
      && (TargetAlive(k, t) ==> r.k.current == t && r.k.pgtbl == Top(k.threads[t]).pgtbl)
      && (!TargetAlive(k, t) ==> r.k.current == k.current && r.k.regs == k.regs.(ret := -EFAULT) && r.ret == 0)
    ensures var r := Dispatch(status, p, k);
      TargetAlive(k, t) && t != k.current ==>
        && r.k.pgtbl == Top(k.threads[t]).pgtbl
        && r.k.regs == k.threads[t].regs
        && r.k.threads[k.current].regs == k.regs.(ret := COS_SCHED_RET_SUCCESS)
        && (r.ret == 1 <==> Preempted in k.threads[t].flags)
  {
    assert CapWf(k, CurrentTable(k)[k.regs.cap]);
  }

  // ----- Asynchronous send -------------------------------------------------

  /** A send to another core signals that core and writes the signal's status. */
  lemma AsndCrossCoreSignals(status: Call -> int, p: Platform, k: Kernel, rid: CapId, rcpu: nat, comp: CompInfo)
    requires Ready(status, p, k)
    requires Invokes(k, AsndCap(rid, rcpu, comp)) && rcpu != p.cpu
    ensures OnlyWroteAndCalled(k, Dispatch(status, p, k), status(SendIpi(rcpu, AsndCap(rid, rcpu, comp))),
                               [SendIpi(rcpu, AsndCap(rid, rcpu, comp))])
  {
  }

  /**
    A same-core send to a live component switches to the receive endpoint's
    thread, and, unlike thread dispatch, leaves that thread's interrupted
    link as it was.
   */
  lemma AsndSameCoreUpcall(status: Call -> int, p: Platform, k: Kernel, rid: CapId, comp: CompInfo, t: ThreadId)
    requires Ready(status, p, k)
    requires Invokes(k, AsndCap(rid, p.cpu, comp)) && comp.liveness in k.live
    requires comp.captbl in k.tables && rid in k.tables[comp.captbl]
    requires k.tables[comp.captbl][rid].ArcvCap? && k.tables[comp.captbl][rid].thd == t
    ensures t in k.threads && |k.threads[t].invstk| > 0
    ensures var r := Dispatch(status, p, k);
      && t in r.k.threads
      && r.k.threads[t].interrupted == k.threads[t].interrupted
      && (TargetAlive(k, t) ==> r.k.current == t)
      && (!TargetAlive(k, t) ==> OnlyWrote(k, r, -EFAULT))
    ensures var r := Dispatch(status, p, k);
      TargetAlive(k, t) && t != k.current ==>
        && r.k.pgtbl == Top(k.threads[t]).pgtbl
        && r.k.regs == k.threads[t].regs
        && r.k.threads[k.current].regs == k.regs.(ret := COS_SCHED_RET_SUCCESS)
        && (r.ret == 1 <==> Preempted in k.threads[t].flags)
  {
    assert CapWf(k, k.tables[comp.captbl][rid]);
  }

  // ----- Asynchronous receive ----------------------------------------------

  /** Receiving on an endpoint bound to another thread is refused with `-ENOENT`. */
  lemma ArcvNotOwnerRefused(status: Call -> int, p: Platform, k: Kernel, c: Cap)
    requires Ready(status, p, k)
    requires Invokes(k, c) && c.ArcvCap? && c.thd != k.current
    ensures OnlyWrote(k, Dispatch(status, p, k), -ENOENT)
  {
  }

  /**
    A pending notification is consumed without a switch: the endpoint's
    counter drops by exactly one, 0 is written, and no other slot, thread or
    table changes.
   */
  lemma ArcvConsumesPending(status: Call -> int, p: Platform, k: Kernel, c: Cap)
    requires Ready(status, p, k)
    requires Invokes(k, c) && c.ArcvCap? && c.thd == k.current && c.pending > 0
    ensures var ct := Top(k.threads[k.current]).captbl;
      var r := Dispatch(status, p, k);
      && r.ret == 0
      && r.k == k.(regs := k.regs.(ret := 0), tables := r.k.tables)
      && r.k.tables == k.tables[ct := CurrentTable(k)[k.regs.cap := c.(pending := c.pending - 1)]]
      && r.k.tables[ct][k.regs.cap].pending + 1 == c.pending
  {
  }

  /** With nothing pending and no interrupted thread, the unimplemented case writes -1. */
  lemma ArcvNothingToResume(status: Call -> int, p: Platform, k: Kernel, c: Cap)
    requires Ready(status, p, k)
    requires Invokes(k, c) && c.ArcvCap? && c.thd == k.current && c.pending == 0
    requires k.threads[k.current].interrupted.None?
    ensures OnlyWrote(k, Dispatch(status, p, k), -1)
  {
  }

  /**
    With nothing pending, a thread that interrupted another returns the core
    to it: it remembers the endpoint it blocked on, its flags become exactly
    READY_UPCALL (every other flag is cleared), and its interrupted link is
    kept; the switch happens exactly when the interrupted thread's component
    is alive.
   */
  lemma ArcvReturnsToInterrupted(status: Call -> int, p: Platform, k: Kernel, c: Cap, it: ThreadId)
    requires Ready(status, p, k)
    requires Invokes(k, c) && c.ArcvCap? && c.thd == k.current && c.pending == 0
    requires k.threads[k.current].interrupted == Some(it)
    ensures it in k.threads && |k.threads[it].invstk| > 0
    ensures var r := Dispatch(status, p, k);
      && k.current in r.k.threads
      && r.k.threads[k.current].arcvCap == k.regs.cap
      && r.k.threads[k.current].flags == {ReadyUpcall}
      && r.k.threads[k.current].interrupted == Some(it)
      && (TargetAlive(k, it) ==> r.k.current == it && r.k.pgtbl == Top(k.threads[it]).pgtbl)
      && (!TargetAlive(k, it) ==> r.k.current == k.current && r.k.regs == k.regs.(ret := -EFAULT))
    ensures var r := Dispatch(status, p, k);
      TargetAlive(k, it) && it != k.current ==>
        && r.k.pgtbl == Top(k.threads[it]).pgtbl
        && r.k.regs == k.threads[it].regs
        && r.k.threads[k.current].regs == k.regs.(ret := COS_SCHED_RET_SUCCESS)
        && (r.ret == 1 <==> Preempted in k.threads[it].flags)
  {
    assert ThreadWf(k, k.threads[k.current]);
  }

  // ----- Slow-path arithmetic ---------------------------------------------

  /**
    Table expansion retypes first and then expands two consecutive ranges
    from one page: ids `a1` and `a1 + HalfPageSlots` (mod 2^32), backed by
    the page's lower and upper halves; the second only if the first
    succeeded, and its status is the result.
   */
  lemma ConsExpandsTwoHalves(status: Call -> int, p: Platform, k: Kernel, table: TableRef)
    requires Ready(status, p, k)
    requires Invokes(k, CaptblCap(table)) && k.regs.op == OpCons
    ensures var r := k.regs;
      var rt := Retype(Top(k.threads[k.current]).captbl, r.a2, r.a3);
      var lower := KMem(r.a2, r.a3, 0);
      var upper := KMem(r.a2, r.a3, PAGE_SIZE / 2);
      var first := CaptblExpand(table, r.a1, lower);
      var second := CaptblExpand(table, AddWrap(r.a1, HalfPageSlots(p.leafSize)), upper);
      var d := Dispatch(status, p, k);
      && (status(rt) != 0 ==> OnlyWroteAndCalled(k, d, -ENOENT, [rt]))
      && (status(rt) == 0 && status(first) != 0 ==>
            OnlyWroteAndCalled(k, d, -ENOENT, [rt, CaptblInit(lower), first]))
      && (status(rt) == 0 && status(first) == 0 ==>
            OnlyWroteAndCalled(k, d, status(second), [rt, CaptblInit(lower), first, CaptblInit(upper), second]))
  {
  }

  /**
    Thread activation takes the new slot from the low and the initial datum
    from the high 16 bits of `a1`; together they are exactly `a1`.
   */
  lemma ThdActivateSplitsFirstArg(status: Call -> int, p: Platform, k: Kernel, table: TableRef)
    requires Ready(status, p, k)
    requires Invokes(k, CaptblCap(table)) && k.regs.op == OpThdActivate
    requires RetypeOk(status, Top(k.threads[k.current]).captbl, k.regs)
    ensures var d := Dispatch(status, p, k);
      && |d.k.trace| == |k.trace| + 2
      && var act := d.k.trace[|k.trace| + 1];
      && act.ThdActivate?
      && act.dest < HALF_MODULUS && act.initData < HALF_MODULUS
      && Pack16(act.initData, act.dest) == k.regs.a1
      && d.k.regs.ret == status(act)
  {
    SplitPackRoundTrip(k.regs.a1);
  }

  /**
    Component activation takes the capability-table id from the high and the
    page-table id from the low 16 bits of `a2`; together they are exactly `a2`.
   */
  lemma CompActivateSplitsSecondArg(status: Call -> int, p: Platform, k: Kernel, table: TableRef)
    requires Ready(status, p, k)
    requires Invokes(k, CaptblCap(table)) && k.regs.op == OpCompActivate
    ensures var d := Dispatch(status, p, k);
      && |d.k.trace| == |k.trace| + 1
      && var act := d.k.trace[|k.trace|];
      && act.CompActivate?
      && act.captblCap < HALF_MODULUS && act.pgtblCap < HALF_MODULUS
      && Pack16(act.captblCap, act.pgtblCap) == k.regs.a2
      && d.k.regs.ret == status(act)
  {
    SplitPackRoundTrip(k.regs.a2);
  }

  // ----- The structural invariant -------------------------------------------

  /** Two capabilities refer to the same thread in the same way. */
  ghost predicate SameCapShape(a: Cap, b: Cap) {
    b == a || (a.ArcvCap? && b.ArcvCap? && b.thd == a.thd)
  }

  /** A state whose threads and capabilities keep their shape keeps `Wf`. */
  lemma WfKept(k: Kernel, k': Kernel)
    requires Wf(k)
    requires k'.current in k'.threads
    requires k'.threads.Keys == k.threads.Keys
    requires forall t :: t in k.threads ==>
      k'.threads[t].invstk == k.threads[t].invstk && k'.threads[t].cpuid == k.threads[t].cpuid
    requires forall t :: t in k'.threads && k'.threads[t].interrupted.Some? ==>
      k'.threads[t].interrupted.value in k'.threads
    requires k'.tables.Keys == k.tables.Keys
    requires forall tb, c :: tb in k'.tables && c in k'.tables[tb] ==>
      c in k.tables[tb] && SameCapShape(k.tables[tb][c], k'.tables[tb][c])
    ensures Wf(k')
  {
    forall tb, c | tb in k'.tables && c in k'.tables[tb]
      ensures CapWf(k', k'.tables[tb][c])
    {
      assert CapWf(k, k.tables[tb][c]);
    }
    forall t | t in k'.threads
      ensures ThreadWf(k', k'.threads[t])
    {
      assert ThreadWf(k, k.threads[t]);
    }
  }

  /** A thread switch keeps the structural invariant. */
  lemma SwitchKeepsWf(k: Kernel, curr: ThreadId, next: ThreadId)
    requires Wf(k) && curr in k.threads && next in k.threads
    ensures Wf(SwitchThd(k, curr, next).k)
  {
    WfKept(k, SwitchThd(k, curr, next).k);
  }

  /** A same-core thread dispatch keeps the structural invariant. */
  lemma ThdRouteKeepsWf(status: Call -> int, p: Platform, k: Kernel, next: ThreadId)
    requires Ready(status, p, k)
    requires Invokes(k, ThdCap(next, p.cpu))
    ensures Wf(RouteTrap(status, p, k).k)
  {
    assert CapWf(k, CurrentTable(k)[k.regs.cap]);
    var k1 := k.(threads := k.threads[next := k.threads[next].(interrupted := Some(k.current))]);
    WfKept(k, k1);
    SwitchKeepsWf(k1, k.current, next);
    assert RouteTrap(status, p, k).k == SwitchThd(k1, k.current, next).k;
  }

  /** A same-core send that switches keeps the structural invariant. */
  lemma AsndRouteKeepsWf(status: Call -> int, p: Platform, k: Kernel, rid: CapId, comp: CompInfo)
    requires Ready(status, p, k)
    requires Invokes(k, AsndCap(rid, p.cpu, comp)) && comp.liveness in k.live
    requires comp.captbl in k.tables && rid in k.tables[comp.captbl]
    requires k.tables[comp.captbl][rid].ArcvCap?
    ensures Wf(RouteTrap(status, p, k).k)
  {
    var t := k.tables[comp.captbl][rid].thd;
    assert CapWf(k, k.tables[comp.captbl][rid]);
    SwitchKeepsWf(k, k.current, t);
    assert RouteTrap(status, p, k).k == SwitchThd(k, k.current, t).k;
  }

  /** A receive that returns to the interrupted thread keeps the structural invariant. */
  lemma ArcvRouteKeepsWf(status: Call -> int, p: Platform, k: Kernel, c: Cap, it: ThreadId)
    requires Ready(status, p, k)
    requires Invokes(k, c) && c.ArcvCap? && c.thd == k.current && c.pending == 0
    requires k.threads[k.current].interrupted == Some(it)
    ensures Wf(RouteTrap(status, p, k).k)
  {
    var th := k.threads[k.current];
    assert ThreadWf(k, th);
    var k1 := k.(threads := k.threads[k.current := th.(arcvCap := k.regs.cap, flags := {ReadyUpcall})]);
    WfKept(k, k1);
    SwitchKeepsWf(k1, k.current, it);
    assert RouteTrap(status, p, k).k == SwitchThd(k1, k.current, it).k;
  }

  /** Whether the trap hands the core to another thread through `cap_switch_thd`. */
  ghost predicate Switches(status: Call -> int, p: Platform, k: Kernel)
    requires Ready(status, p, k)
  {
    && RouteTrap(status, p, k).Leave? && LooksUp(k) && k.regs.cap in CurrentTable(k)
    && (CurrentTable(k)[k.regs.cap].ThdCap? || CurrentTable(k)[k.regs.cap].AsndCap?
        || CurrentTable(k)[k.regs.cap].ArcvCap?)
  }

  /** A trap that does not switch threads keeps the structural invariant. */
  lemma StayingRouteKeepsWf(status: Call -> int, p: Platform, k: Kernel)
    requires Ready(status, p, k) && !Switches(status, p, k)
    ensures Wf(RouteTrap(status, p, k).k)
  {
    WfKept(k, RouteTrap(status, p, k).k);
  }

  /** A trap that switches threads keeps the structural invariant. */
  lemma SwitchingRouteKeepsWf(status: Call -> int, p: Platform, k: Kernel)
    requires Ready(status, p, k) && Switches(status, p, k)
    ensures Wf(RouteTrap(status, p, k).k)
  {
    match CurrentTable(k)[k.regs.cap]
    case ThdCap(next, _) =>
      ThdRouteKeepsWf(status, p, k, next);
    case AsndCap(rid, _, comp) =>
      AsndRouteKeepsWf(status, p, k, rid, comp);
    case ArcvCap(_, _, _, _) =>
      ArcvRouteKeepsWf(status, p, k, CurrentTable(k)[k.regs.cap], k.threads[k.current].interrupted.value);
  }

  /** Every trap keeps the structural invariant. */
  lemma DispatchKeepsWf(status: Call -> int, p: Platform, k: Kernel)
    requires Ready(status, p, k)
    ensures Wf(Dispatch(status, p, k).k)
  {
    var route := RouteTrap(status, p, k);
    if Switches(status, p, k) {
      SwitchingRouteKeepsWf(status, p, k);
    } else {
      StayingRouteKeepsWf(status, p, k);
    }
    WfKept(route.k, Dispatch(status, p, k).k);
  }
}

=== FILE: ipi_ring.dfy ===
/**
  The receiving side of the cross-core notification rings
  (`cos_cap_ipi_handling`, capinv.c:513-543). Each core has one ring per
  source core; a ring whose sender counter differs from its receiver counter
  has a notification to process. The scan visits every ring once, starting
  at a rotating index so that no source core is always served first.
  Processing a ring is outside this model: the scan records the index of
  every ring it hands to processing, in order.
 */
module IpiRing {

  datatype XcoreRing = XcoreRing(sender: int, receiver: int)

  /** One core's receiving rings, indexed by source core, and the next scan's start. */
  datatype ReceivingRings = ReceivingRings(start: int, source: seq<XcoreRing>)

  predicate HasPending(r: XcoreRing) {
    r.sender != r.receiver
  }

  ghost predicate Distinct(s: seq<nat>) {
    forall i, j :: 0 <= i < j < |s| ==> s[i] != s[j]
  }

  /** The indices `lo`, ..., `hi - 1`, in increasing order. */
  function Range(lo: nat, hi: nat): seq<nat>
    requires lo <= hi
  {
    seq(hi - lo, i requires 0 <= i < hi - lo => lo + i)
  }

  lemma RangeSnoc(lo: nat, hi: nat)
    requires lo <= hi
    ensures Range(lo, hi) + [hi] == Range(lo, hi + 1)
  {
  }

  /** The order a scan starting at `start` visits `n` rings in. */
  function ScanOrder(start: nat, n: nat): (s: seq<nat>)
    requires start < n
  {
    Range(start, n) + Range(0, start)
  }

  /** The scan is the rotation of 0..n-1 by `start`. */
  lemma ScanOrderIsRotation(start: nat, n: nat)
    requires start < n
    ensures |ScanOrder(start, n)| == n
    ensures forall i :: 0 <= i < n ==> ScanOrder(start, n)[i] == (start + i) % n
  {
  }

  /** The scan visits every ring index, and each exactly once. */
  lemma ScanOrderVisitsEachOnce(start: nat, n: nat)
    requires start < n
    ensures |ScanOrder(start, n)| == n
    ensures forall x: nat :: x in ScanOrder(start, n) <==> x < n
    ensures Distinct(ScanOrder(start, n))
  {
    var s := ScanOrder(start, n);
    forall x: nat | x < n
      ensures x in s
    {
      if x >= start {
        assert s[x - start] == x;
      } else {
        assert s[n - start + x] == x;
      }
    }
  }

  /** The indices of `order` whose rings have a pending notification, in order. */
  function Pending(order: seq<nat>, rings: seq<XcoreRing>): seq<nat>
    decreases |order|
  {
    if |order| == 0 then []
    else
      var last := order[|order| - 1];
      Pending(order[..|order| - 1], rings) + (if last < |rings| && HasPending(rings[last]) then [last] else [])
  }

  /** An index is handed to processing exactly when it is visited and its ring is pending. */
  lemma {:induction false} PendingMembers(order: seq<nat>, rings: seq<XcoreRing>)
    ensures forall x :: x in Pending(order, rings) <==> x in order && x < |rings| && HasPending(rings[x])
    decreases |order|
  {
    if |order| > 0 {
      var init := order[..|order| - 1];
      assert order == init + [order[|order| - 1]];
      PendingMembers(init, rings);
    }
  }

  /** A scan that visits each index once hands each ring to processing at most once. */
  lemma {:induction false} PendingDistinct(order: seq<nat>, rings: seq<XcoreRing>)
    requires Distinct(order)
    ensures Distinct(Pending(order, rings))
    decreases |order|
  {
    if |order| > 0 {
      var init := order[..|order| - 1];
      var last := order[|order| - 1];
      assert order == init + [last];
      assert last !in init;
      PendingDistinct(init, rings);
      PendingMembers(init, rings);
    }
  }

  /** Visiting one more index extends the pending list by that index, if its ring is pending. */
  lemma PendingSnoc(order: seq<nat>, x: nat, rings: seq<XcoreRing>)
    requires x < |rings|
    ensures Pending(order + [x], rings) == Pending(order, rings) + (if HasPending(rings[x]) then [x] else [])
  {
    assert (order + [x])[..|order|] == order;
  }

  /**
    One of the scan's two loops: visits the rings `lo`, ..., `hi - 1` in
    order, handing each pending one to processing.
   */
  method ScanRange(rings: seq<XcoreRing>, lo: nat, hi: nat, visited0: seq<nat>, processed0: seq<nat>)
    returns (visited: seq<nat>, processed: seq<nat>)
    requires lo <= hi <= |rings|
    requires processed0 == Pending(visited0, rings)
    ensures visited == visited0 + Range(lo, hi)
    ensures processed == Pending(visited, rings)
  {
    visited, processed := visited0, processed0;
    var idx := lo;
    while idx < hi
      invariant lo <= idx <= hi
      invariant visited == visited0 + Range(lo, idx)
      invariant processed == Pending(visited, rings)
    {
      PendingSnoc(visited, idx, rings);
      RangeSnoc(lo, idx);
      assert visited + [idx] == visited0 + (Range(lo, idx) + [idx]);
      visited := visited + [idx];
      if rings[idx].sender != rings[idx].receiver {
        processed := processed + [idx];
      }
      idx := idx + 1;
    }
  }

  /**
    One scan of this core's rings. It returns the indices it visited and
    those it handed to processing, and the rings with the start rotated by
    one for the next scan.
   */
  method CapIpiHandling(rr: ReceivingRings) returns (visited: seq<nat>, processed: seq<nat>, rr': ReceivingRings)
    requires 0 < |rr.source|
    requires 0 <= rr.start < |rr.source|
    ensures visited == ScanOrder(rr.start, |rr.source|)
    ensures processed == Pending(visited, rr.source)
    ensures forall x :: x in processed <==> 0 <= x < |rr.source| && HasPending(rr.source[x])
    ensures Distinct(processed)
    ensures rr'.source == rr.source
    ensures rr'.start == (rr.start + 1) % |rr.source|
    ensures 0 <= rr'.start < |rr.source|
  {
    var n := |rr.source|;
    var end := rr.start - 1;
    rr' := rr.(start := (rr.start + 1) % n);
    // The first half: from the start to the last ring.
    visited, processed := ScanRange(rr.source, rr.start, n, [], []);
    // The second half: from the first ring up to `end`, the one before the start.
    visited, processed := ScanRange(rr.source, 0, end + 1, visited, processed);
    assert visited == ScanOrder(rr.start, n);
    ScanOrderVisitsEachOnce(rr.start, n);
    PendingMembers(visited, rr.source);
    PendingDistinct(visited, rr.source);
  }

  /** In a sequence without repetitions, a member occurs exactly once. */
  lemma {:induction false} DistinctOccursOnce(s: seq<nat>, x: nat)
    requires Distinct(s) && x in s
    ensures multiset(s)[x] == 1
    decreases |s|
  {
    var init := s[..|s| - 1];
    var last := s[|s| - 1];
    assert s == init + [last];
    assert Distinct(init);
    if last == x {
      assert x !in init;
    } else {
      DistinctOccursOnce(init, x);
    }
  }

  /**
    Sends coalesce: however many notifications a source core posted since the
    last drain (one or more), one scan hands its ring to processing exactly
    once.
   */
  lemma SendsDetectedOncePerScan(start: nat, rings: seq<XcoreRing>, src: nat, sends: nat)
    requires start < |rings| && src < |rings|
    requires sends >= 1 && rings[src].sender == rings[src].receiver + sends
    ensures multiset(Pending(ScanOrder(start, |rings|), rings))[src] == 1
  {
    var order := ScanOrder(start, |rings|);
    ScanOrderVisitsEachOnce(start, |rings|);
    PendingMembers(order, rings);
    PendingDistinct(order, rings);
    DistinctOccursOnce(Pending(order, rings), src);
  }
}

=== FILE: kernel_state.dfy ===
/**
  The abstract kernel state the capability dispatcher works on: capability
  records, threads with their invocation stacks, the capability tables, the
  liveness registry, the active page table and the trap frame of the calling
  thread. Calls into code whose bodies are not part of this model (memory
  retyping, slot activation, table expansion, ...) are recorded, in order, in
  `Kernel.trace`; their integer status is supplied by an oracle parameter.
 */
module KernelState {
  import opened Words

  datatype Option<T> = None | Some(value: T)

  /* Identities of kernel objects. */
  type ThreadId = nat
  type TableRef = nat
  type PgtblRef = nat
  type LivenessId = nat
  type CapId = Word

  /* Error numbers written back to user level (Linux errno values). */
  const ENOENT: int := 2
  const EFAULT: int := 14
  const EINVAL: int := 22

  /** The reserved capability id of the default invocation return. */
  const COS_DEFAULT_RET_CAP: CapId := 0
  /** Result a switched-out thread sees when it is resumed. */
  const COS_SCHED_RET_SUCCESS: int := 0
  const PAGE_SIZE: nat := 4096

  /** One protection domain: its capability table, page table and liveness id. */
  datatype CompInfo = CompInfo(captbl: TableRef, pgtbl: PgtblRef, liveness: LivenessId)

  /** The type tag of a capability slot. */
  datatype Kind = KCaptbl | KPgtbl | KThd | KComp | KSinv | KSret | KAsnd | KArcv

  /** A capability record; the variant is the slot's authoritative type tag. */
  datatype Cap =
    | CaptblCap(table: TableRef)
    // `lvl` is the page-table level: 0 for a root page table (capinv.c:308),
    // 1 for a PTE page (capinv.c:324).
    | PgtblCap(pgtbl: PgtblRef, lvl: nat)
    | ThdCap(t: ThreadId, cpuid: nat)
    | CompCap(info: CompInfo, entry: Word)
    | SinvCap(comp: CompInfo, entry: Word)
    | SretCap
    | AsndCap(arcvCapid: CapId, arcvCpuid: nat, comp: CompInfo)
    | ArcvCap(thd: ThreadId, cpuid: nat, comp: CompInfo, pending: nat)

  /** The operation selector of a slow-path invocation. */
  datatype OpCode =
    | OpCaptblActivate | OpPgdActivate | OpPteActivate
    | OpThdActivate | OpThdDeactivate
    | OpCompActivate | OpCompDeactivate
    | OpSinvActivate | OpSinvDeactivate
    | OpSretActivate | OpSretDeactivate
    | OpAsndActivate | OpAsndDeactivate
    | OpArcvActivate | OpArcvDeactivate
    | OpCpy | OpCons | OpDecons
    | OpMappingCons | OpMappingDecons | OpMappingMod | OpMappingRetype
    | OpOther(code: Word)

  /**
    A register frame. `ret` is the result slot written on the way out; `cap`,
    `op` and `a1`..`a4` are what the trap carries in; `printReq` stands for the
    temporary print request recognised by the value of the first register.
   */
  datatype Regs = Regs(
    ret: int,
    cap: CapId,
    op: OpCode,
    a1: Word, a2: Word, a3: Word, a4: Word,
    printReq: bool)

  datatype Flag = Preempted | ActiveUpcall | ReadyUpcall | OtherFlag(bit: nat)

  /** A thread: saved frame, home core, invocation stack (top is last), flags. */
  datatype Thread = Thread(
    regs: Regs,
    cpuid: nat,
    invstk: seq<CompInfo>,
    flags: set<Flag>,
    interrupted: Option<ThreadId>,
    arcvCap: CapId)

  /** The page of kernel memory produced by retyping `addr` through `pgtblCap`, at byte `offset`. */
  datatype KMem = KMem(pgtblCap: Word, addr: Word, offset: nat)

  /** A call into a collaborator whose body is not part of this model. */
  datatype Call =
    | SretRet(thd: ThreadId)
    | SinvCall(thd: ThreadId, sinv: Cap)
    | PrintFn
    | SendIpi(cpu: nat, asnd: Cap)
    | Retype(ct: TableRef, pgtblCap: Word, kmem: Word)
    | CaptblCreate(mem: KMem)
    | CaptblActivate(ct: TableRef, cap: CapId, dest: Word, mem: KMem)
    | PgtblCreate(mem: KMem, parent: PgtblRef)
    | PteInit(mem: KMem)
    | PgtblActivate(ct: TableRef, cap: CapId, dest: Word, mem: KMem, lvl: nat)
    | ThdActivate(ct: TableRef, cap: CapId, dest: Word, mem: KMem, comp: Word, initData: Word)
    | CompActivate(ct: TableRef, cap: CapId, dest: Word, captblCap: Word, pgtblCap: Word, lid: Word, entry: Word)
    | SinvActivate(ct: TableRef, cap: CapId, dest: Word, compCap: Word, entry: Word)
    | AsndActivate(ct: TableRef, cap: CapId, dest: Word, rcvCaptbl: Word, rcvCap: Word)
    | ArcvActivate(ct: TableRef, cap: CapId, dest: Word, compCap: Word, thdCap: Word)
    | Deactivate(kind: Kind, ct: TableRef, cap: CapId, dest: Word)
    | CapCpy(ct: TableRef, destTbl: Word, destId: Word, srcTbl: Word, srcId: Word)
    | CapCons(ct: TableRef, pt: CapId, pteCap: Word, addr: Word)
    | CaptblInit(mem: KMem)
    | CaptblExpand(table: TableRef, id: Word, mem: KMem)
    | MappingDel(pgtbl: PgtblRef, addr: Word)

  /** The state one core's dispatcher sees. */
  datatype Kernel = Kernel(
    threads: map<ThreadId, Thread>,
    current: ThreadId,
    tables: map<TableRef, map<CapId, Cap>>,
    live: set<LivenessId>,
    pgtbl: PgtblRef,
    regs: Regs,
    trace: seq<Call>)

  /** The core the dispatcher runs on and the slot size of a capability-table leaf. */
  datatype Platform = Platform(cpu: nat, leafSize: nat)

  /** The component a thread currently executes in: the top of its invocation stack. */
  function Top(th: Thread): CompInfo
    requires |th.invstk| > 0
  {
    th.invstk[|th.invstk| - 1]
  }

  /** Appends collaborator calls to the trace, leaving everything else alone. */
  function Log(k: Kernel, calls: seq<Call>): Kernel
  {
    k.(trace := k.trace + calls)
  }

  ghost predicate ThreadWf(k: Kernel, th: Thread) {
    && |th.invstk| > 0
    && Top(th).captbl in k.tables
    && (th.interrupted.Some? ==> th.interrupted.value in k.threads)
  }

  ghost predicate CapWf(k: Kernel, c: Cap) {
    match c
    case ThdCap(t, cpuid) => t in k.threads && k.threads[t].cpuid == cpuid
    case ArcvCap(t, _, _, _) => t in k.threads
    case _ => true
  }

  /**
    The structural invariant the source relies on without checking: the running
    thread exists, every invocation stack is non-empty and its top names an
    existing table, and thread references held by capabilities and by the
    interrupted-thread link point at threads. A thread capability's core agrees
    with its thread's core (the assertion at capinv.c:183).
   */
  ghost predicate Wf(k: Kernel) {
    && k.current in k.threads
    && (forall t :: t in k.threads ==> ThreadWf(k, k.threads[t]))
    && (forall tb, c :: tb in k.tables && c in k.tables[tb] ==> CapWf(k, k.tables[tb][c]))
  }

  /** The capability table of the component the running thread is in. */
  function CurrentTable(k: Kernel): map<CapId, Cap>
    requires Wf(k)
  {
    k.tables[Top(k.threads[k.current]).captbl]
  }
}

=== FILE: slow_path.dfy ===
/**
  The slow path of the dispatcher: the operation switch for an invoked
  capability-table capability (capinv.c:265-450) and for an invoked page-table
  capability (capinv.c:451-495). Each arm calls collaborators and ends either
  at `done:` with a result code, or at `err:` (a `cos_throw` or a `goto err`).
 */
module SlowPath {
  import opened Words
  import opened KernelState

  /** Where an arm leaves the switch: `done:` with `ret`, or `err:` with what was thrown. */
  datatype Exit = Done(ret: int) | Err(thrown: Option<int>)

  /** An arm's exit and the collaborator calls it made, in order. */
  datatype Slow = Slow(exit: Exit, calls: seq<Call>)

  /** Capability-table slots per half page: the second expansion's id offset. */
  function HalfPageSlots(leafSize: nat): (n: nat)
    requires leafSize > 0
    ensures n * leafSize <= PAGE_SIZE / 2 < (n + 1) * leafSize
  {
    PAGE_SIZE / 2 / leafSize
  }

  /** The retype an operation performs before anything else, if it needs kernel memory. */
  function RetypeOf(ct: TableRef, r: Regs): (c: Option<Call>)
    ensures c.Some? <==> r.op in {OpCaptblActivate, OpPgdActivate, OpPteActivate, OpThdActivate, OpCons}
    ensures c.Some? ==> c.value.Retype? && c.value.ct == ct
  {
    match r.op
    case OpCaptblActivate => Some(Retype(ct, r.a1, r.a2))
    case OpPgdActivate => Some(Retype(ct, r.a1, r.a2))
    case OpPteActivate => Some(Retype(ct, r.a1, r.a2))
    case OpThdActivate => Some(Retype(ct, r.a2, r.a3))
    case OpCons => Some(Retype(ct, r.a2, r.a3))
    case _ => None
  }

  /** Whether retyping succeeds for an operation that retypes. */
  ghost predicate RetypeOk(status: Call -> int, ct: TableRef, r: Regs) {
    var rt := RetypeOf(ct, r);
    rt.Some? && status(rt.value) == 0
  }

  /**
    What the PGD activation dereferences without a check (capinv.c:304-305):
    once retyping succeeded, `a1` names a page-table capability in `tbl`.
   */
  ghost predicate ParentResolves(status: Call -> int, tbl: map<CapId, Cap>, ct: TableRef, r: Regs) {
    r.op == OpPgdActivate && RetypeOk(status, ct, r) ==> r.a1 in tbl && tbl[r.a1].PgtblCap?
  }

  /**
    The operation switch for a capability-table capability `cap`, found in
    the table `ct` whose contents are `tbl`.
   */
  function CaptblOp(status: Call -> int, leafSize: nat, tbl: map<CapId, Cap>, ct: TableRef, cap: CapId, r: Regs): (s: Slow)
    requires leafSize > 0
    requires cap in tbl && tbl[cap].CaptblCap?
    requires ParentResolves(status, tbl, ct, r)
    ensures RetypeOf(ct, r).Some? ==> |s.calls| > 0 && s.calls[0] == RetypeOf(ct, r).value
    ensures RetypeOf(ct, r).Some? && !RetypeOk(status, ct, r) ==> s == Slow(Err(Some(status(RetypeOf(ct, r).value))), [RetypeOf(ct, r).value])
    ensures r.op in {OpDecons, OpMappingCons, OpMappingDecons, OpMappingMod, OpMappingRetype} || r.op.OpOther? ==> s == Slow(Err(None), [])
    ensures r.op == OpSretActivate ==> s == Slow(Done(0), [])
    ensures s.exit.Done? && r.op != OpSretActivate ==> |s.calls| > 0 && s.exit.ret == status(s.calls[|s.calls| - 1])
  {
    var capin := r.a1;
    match r.op
    case OpCaptblActivate =>
      var rt := Retype(ct, r.a1, r.a2);
      if status(rt) != 0 then Slow(Err(Some(status(rt))), [rt])
      else
        var mem := KMem(r.a1, r.a2, 0);
        var act := CaptblActivate(ct, cap, r.a3, mem);
        Slow(Done(status(act)), [rt, CaptblCreate(mem), act])
    case OpPgdActivate =>
      var rt := Retype(ct, r.a1, r.a2);
      if status(rt) != 0 then Slow(Err(Some(status(rt))), [rt])
      else
        var mem := KMem(r.a1, r.a2, 0);
        var act := PgtblActivate(ct, cap, r.a3, mem, 0);
        Slow(Done(status(act)), [rt, PgtblCreate(mem, tbl[r.a1].pgtbl), act])
    case OpPteActivate =>
      var rt := Retype(ct, r.a1, r.a2);
      if status(rt) != 0 then Slow(Err(Some(status(rt))), [rt])
      else
        var mem := KMem(r.a1, r.a2, 0);
        var act := PgtblActivate(ct, cap, r.a3, mem, 1);
        Slow(Done(status(act)), [rt, PteInit(mem), act])
    case OpThdActivate =>
      var rt := Retype(ct, r.a2, r.a3);
      if status(rt) != 0 then Slow(Err(Some(status(rt))), [rt])
      else
        var act := ThdActivate(ct, cap, Low16(r.a1), KMem(r.a2, r.a3, 0), r.a4, High16(r.a1));
        Slow(Done(status(act)), [rt, act])
    case OpThdDeactivate => Deactivation(status, KThd, ct, cap, capin)
    case OpCompActivate =>
      var act := CompActivate(ct, cap, capin, High16(r.a2), Low16(r.a2), r.a3, r.a4);
      Slow(Done(status(act)), [act])
    case OpCompDeactivate => Deactivation(status, KComp, ct, cap, capin)
    case OpSinvActivate =>
      var act := SinvActivate(ct, cap, capin, r.a2, r.a3);
      Slow(Done(status(act)), [act])
    case OpSinvDeactivate => Deactivation(status, KSinv, ct, cap, capin)
    case OpSretActivate => Slow(Done(0), [])
    case OpSretDeactivate => Deactivation(status, KSret, ct, cap, capin)
    case OpAsndActivate =>
      var act := AsndActivate(ct, cap, capin, r.a2, r.a3);
      Slow(Done(status(act)), [act])
    case OpAsndDeactivate => Deactivation(status, KAsnd, ct, cap, capin)
    case OpArcvActivate =>
      // The receive endpoint's component and thread arrive in a3 and a2,
      // and are handed over in the opposite order.
      var act := ArcvActivate(ct, cap, capin, r.a3, r.a2);
      Slow(Done(status(act)), [act])
    case OpArcvDeactivate => Deactivation(status, KArcv, ct, cap, capin)
    case OpCpy =>
      var cpy := CapCpy(ct, r.a2, r.a3, cap, r.a1);
      Slow(Done(status(cpy)), [cpy])
    case OpCons => Expand(status, leafSize, tbl, ct, cap, capin, r.a2, r.a3)
    case _ => Slow(Err(None), [])
  }

  /** A deactivation arm: the one collaborator call, whose status `done:` writes. */
  function Deactivation(status: Call -> int, kind: Kind, ct: TableRef, cap: CapId, slot: Word): Slow
  {
    var d := Deactivate(kind, ct, cap, slot);
    Slow(Done(status(d)), [d])
  }

  /**
    Table expansion (capinv.c:419-445): one retyped page backs two
    consecutive leaf ranges, the second `HalfPageSlots` ids after the first
    and half a page further into the memory. The second half is expanded only
    when the first succeeded.
   */
  function Expand(status: Call -> int, leafSize: nat, tbl: map<CapId, Cap>, ct: TableRef, cap: CapId,
                  targetId: Word, pgtblCap: Word, pageAddr: Word): (s: Slow)
    requires leafSize > 0
    requires cap in tbl && tbl[cap].CaptblCap?
    ensures var rt := Retype(ct, pgtblCap, pageAddr);
      var mem := KMem(pgtblCap, pageAddr, 0);
      var first := CaptblExpand(tbl[cap].table, targetId, mem);
      var second := CaptblExpand(tbl[cap].table, AddWrap(targetId, HalfPageSlots(leafSize)), mem.(offset := PAGE_SIZE / 2));
      && (status(rt) != 0 ==> s == Slow(Err(Some(status(rt))), [rt]))
      && (status(rt) == 0 && status(first) != 0 ==> s == Slow(Err(Some(status(first))), [rt, CaptblInit(mem), first]))
      && (status(rt) == 0 && status(first) == 0 ==>
            s == Slow(Done(status(second)), [rt, CaptblInit(mem), first, CaptblInit(second.mem), second]))
  {
    var rt := Retype(ct, pgtblCap, pageAddr);
    if status(rt) != 0 then Slow(Err(Some(status(rt))), [rt])
    else
      // The target is looked up again after retyping; it is `cap` itself.
      var target := tbl[cap];
      if !target.CaptblCap? then Slow(Err(Some(EINVAL)), [rt])
      else
        var mem := KMem(pgtblCap, pageAddr, 0);
        var first := CaptblExpand(target.table, targetId, mem);
        if status(first) != 0 then Slow(Err(Some(status(first))), [rt, CaptblInit(mem), first])
        else
          var upper := mem.(offset := PAGE_SIZE / 2);
          var second := CaptblExpand(target.table, AddWrap(targetId, HalfPageSlots(leafSize)), upper);
          Slow(Done(status(second)), [rt, CaptblInit(mem), first, CaptblInit(upper), second])
  }

  /** The operation switch for a page-table capability `cap` of table `ct`. */
  function PgtblOp(status: Call -> int, ct: TableRef, cap: CapId, pt: Cap, r: Regs): (s: Slow)
    requires pt.PgtblCap?
    ensures r.op in {OpDecons, OpMappingCons} ==> s == Slow(Done(0), [])
    ensures r.op == OpMappingDecons && pt.lvl != 0 ==> s == Slow(Err(Some(EINVAL)), [])
    ensures r.op == OpMappingDecons && pt.lvl == 0 ==>
      s == Slow(Done(status(MappingDel(pt.pgtbl, r.a1))), [MappingDel(pt.pgtbl, r.a1)])
    ensures s.exit.Err? <==> !(r.op in {OpCpy, OpCons, OpDecons, OpMappingCons} || (r.op == OpMappingDecons && pt.lvl == 0))
    ensures s.exit.Done? && r.op !in {OpDecons, OpMappingCons} ==> |s.calls| == 1 && s.exit.ret == status(s.calls[0])
    // `cap_cpy` takes the destination table and slot before the source (capinv.c:463).
    ensures r.op == OpCpy ==> s.calls == [CapCpy(ct, r.a2, r.a3, cap, r.a1)]
    ensures r.op == OpCons ==> s.calls == [CapCons(ct, cap, r.a1, r.a2)]
  {
    match r.op
    case OpCpy =>
      var cpy := CapCpy(ct, r.a2, r.a3, cap, r.a1);
      Slow(Done(status(cpy)), [cpy])
    case OpCons =>
      var cons := CapCons(ct, cap, r.a1, r.a2);
      Slow(Done(status(cons)), [cons])
    case OpDecons => Slow(Done(0), [])
    case OpMappingCons => Slow(Done(0), [])
    case OpMappingDecons =>
      if pt.lvl != 0 then Slow(Err(Some(EINVAL)), [])
      else
        var del := MappingDel(pt.pgtbl, r.a1);
        Slow(Done(status(del)), [del])
    case _ => Slow(Err(None), [])
  }
}

=== FILE: thread_switch.dfy ===
/**
  The thread switch engine: an all-or-nothing transfer of the core from the
  calling thread to `next`, guarded by the liveness of the component `next`
  currently executes in (capinv.c:79-112).
 */
module ThreadSwitch {
  import opened Words
  import opened KernelState

  /** The state after a switch attempt, and the preemption bit it reports. */
  datatype Switch = Switch(k: Kernel, preempt: int)

  /** The liveness check that guards a switch to `next`. */
  ghost predicate TargetAlive(k: Kernel, next: ThreadId)
    requires next in k.threads && |k.threads[next].invstk| > 0
  {
    Top(k.threads[next]).liveness in k.live
  }

  /** A failed switch: only the caller's result slot changes, to `-EFAULT`. */
  ghost predicate Faulted(k: Kernel, r: Switch) {
    && r.k == k.(regs := k.regs.(ret := -EFAULT))
    && r.preempt == 0
  }

  /**
    A completed switch from `curr` to `next`: `curr` saved the trap frame with
    a success result, the core runs `next` in the address space of its top
    component, the trap frame is `next`'s saved frame, and of `next`'s flags
    only PREEMPTED was cleared, reported through the return value.
   */
  ghost predicate Switched(k: Kernel, curr: ThreadId, next: ThreadId, r: Switch)
    requires curr in k.threads && next in k.threads && |k.threads[next].invstk| > 0
  {
    var n := k.threads[next];
    && r.k.threads.Keys == k.threads.Keys
    && (curr != next ==> r.k.threads[curr] == k.threads[curr].(regs := k.regs.(ret := COS_SCHED_RET_SUCCESS)))
    && r.k.threads[next] == (if curr == next then n.(regs := k.regs.(ret := COS_SCHED_RET_SUCCESS)) else n)
                              .(flags := n.flags - {Preempted})
    && r.k.regs == r.k.threads[next].regs
    && r.k.current == next
    && r.k.pgtbl == Top(n).pgtbl
    && (r.preempt == 1 <==> Preempted in n.flags)
    && (r.preempt == 0 <==> Preempted !in n.flags)
    && r.k.tables == k.tables && r.k.live == k.live && r.k.trace == k.trace
    && (forall t :: t in k.threads && t != curr && t != next ==> r.k.threads[t] == k.threads[t])
  }

  function SwitchThd(k: Kernel, curr: ThreadId, next: ThreadId): (r: Switch)
    requires curr in k.threads && next in k.threads && |k.threads[next].invstk| > 0
    ensures TargetAlive(k, next) ==> Switched(k, curr, next, r)
    ensures !TargetAlive(k, next) ==> Faulted(k, r)
  {
    var nextCi := Top(k.threads[next]);
    if nextCi.liveness !in k.live then
      Switch(k.(regs := k.regs.(ret := -EFAULT)), 0)
    else
      var saved := k.regs.(ret := COS_SCHED_RET_SUCCESS);
      var t1 := k.threads[curr := k.threads[curr].(regs := saved)];
      var n := t1[next];
      var preempt := if Preempted in n.flags then 1 else 0;
      var t2 := t1[next := n.(flags := n.flags - {Preempted})];
      Switch(k.(threads := t2, current := next, pgtbl := nextCi.pgtbl, regs := t2[next].regs), preempt)
  }

  /**
    A switch either happens completely or not at all: afterwards the core runs
    `next` in `next`'s address space, or it still runs the caller in the old
    address space with `-EFAULT` as its only change.
   */
  lemma SwitchIsAtomic(k: Kernel, curr: ThreadId, next: ThreadId)
    requires curr in k.threads && next in k.threads && |k.threads[next].invstk| > 0
    requires k.current == curr
    ensures var r := SwitchThd(k, curr, next);
      || (r.k.current == next && r.k.pgtbl == Top(k.threads[next]).pgtbl
          && r.k.threads[curr].regs == (if curr == next then r.k.regs else k.regs.(ret := COS_SCHED_RET_SUCCESS))
          && r.k.regs == (if curr == next then k.regs.(ret := COS_SCHED_RET_SUCCESS) else k.threads[next].regs))
      || (r.k == k.(regs := k.regs.(ret := -EFAULT)) && r.preempt == 0)
  {
  }

  /**
    Switching from `a` to `b` and straight back resumes `a` with the frame it
    trapped with, its result slot now holding the success code, in the
    address space of its own top component.
   */
  lemma SwitchBackResumesCaller(k: Kernel, a: ThreadId, b: ThreadId)
    requires a in k.threads && b in k.threads && a != b
    requires |k.threads[a].invstk| > 0 && |k.threads[b].invstk| > 0
    requires TargetAlive(k, a) && TargetAlive(k, b)
    ensures var s1 := SwitchThd(k, a, b);
      && a in s1.k.threads && b in s1.k.threads && |s1.k.threads[a].invstk| > 0
      && var s2 := SwitchThd(s1.k, b, a);
      && s2.k.current == a
      && s2.k.regs == k.regs.(ret := COS_SCHED_RET_SUCCESS)
      && s2.k.pgtbl == Top(k.threads[a]).pgtbl
      && s2.k.threads[b].regs == k.threads[b].regs.(ret := COS_SCHED_RET_SUCCESS)
  {
    var s1 := SwitchThd(k, a, b);
    assert s1.k.threads[a].invstk == k.threads[a].invstk;
    assert TargetAlive(s1.k, a);
  }
}

=== FILE: words.dfy ===
/**
  Machine words of the trap frame. The kernel runs on 32-bit x86, so every
  register operand (`unsigned long`, `capid_t`, `vaddr_t`) is a 32-bit
  unsigned value, and arithmetic on capability ids wraps modulo 2^32.
 */
module Words {

  const WORD_MODULUS: int := 0x1_0000_0000
  const HALF_MODULUS: int := 0x1_0000

  type Word = w: int | 0 <= w < 0x1_0000_0000

  /** `w & 0xFFFF`: the low 16-bit field of a packed register operand. */
  function Low16(w: Word): (r: Word)
    ensures r < HALF_MODULUS
    ensures (w - r) % HALF_MODULUS == 0
  {
    w % HALF_MODULUS
  }

  /** `w >> 16`: the high 16-bit field of a packed register operand. */
  function High16(w: Word): (r: Word)
    ensures r < HALF_MODULUS
    ensures r * HALF_MODULUS <= w < (r + 1) * HALF_MODULUS
  {
    w / HALF_MODULUS
  }

  /** How user level packs two 16-bit fields into one register. */
  function Pack16(hi: Word, lo: Word): Word
    requires hi < HALF_MODULUS && lo < HALF_MODULUS
  {
    hi * HALF_MODULUS + lo
  }

  /** Unsigned 32-bit addition, wrapping like `capid_t` arithmetic in C. */
  function AddWrap(a: Word, b: nat): (r: Word)
    ensures a + b < WORD_MODULUS ==> r == a + b
    ensures a + b >= WORD_MODULUS && b < WORD_MODULUS ==> r == a + b - WORD_MODULUS
  {
    (a + b) % WORD_MODULUS
  }

  /** Splitting a register into its two fields loses nothing. */
  lemma SplitPackRoundTrip(w: Word)
    ensures Pack16(High16(w), Low16(w)) == w
  {
  }

  /** Packing two fields and splitting the result gives the fields back. */
  lemma PackSplitRoundTrip(hi: Word, lo: Word)
    requires hi < HALF_MODULUS && lo < HALF_MODULUS
    ensures High16(Pack16(hi, lo)) == hi
    ensures Low16(Pack16(hi, lo)) == lo
  {
    var w := hi * HALF_MODULUS + lo;
    assert w / HALF_MODULUS == hi;
  }
}
